=== FILE: README.md ===
# Message read-tracking and navigation of the video project manager

This project models the client-side logic of the video project manager. Staff use the app to track
video-editing projects through intake, editing, QC and delivery. The model covers four pieces:

- **Read tracking** (`lib/messageRead.ts`). A per-user, per-project "last seen" watermark lives in the
  browser's `localStorage` under the key `vpm:lastSeen:<user>:<project>`. The `isUnread` test compares a
  message's time with that watermark.

  No file shown calls `setLastSeenAt`: the sidebar and the messages inbox only call `isUnread`. In the app as
  it stands no per-user watermark is ever written, so `isUnread` is true for every message
  (`UnreadWithoutWatermark`).
- **Sidebar** (`components/Sidebar.tsx`). It covers:
  - which navigation items each role sees;
  - which item is highlighted for the current path (the longest matching href);
  - the unread badge on "Messages", counted over the newest 400 message rows.

  The only caller shown, `app/(app)/layout.tsx:31`, passes no `currentUserId`. In the app as it stands the
  count is therefore never loaded and the badge never appears. This is the `SidebarState(None)` case:
  `LoadUnreadCount` changes nothing, so no load ever runs, and `BadgeWithinQueryLimit` shows no badge.

  When the `currentUserId` prop changes, the effect re-runs but the `useState` count is kept
  (`SidebarState.ChangeUser`). After a sign-out the last user's badge therefore stays
  (`SidebarState.SignOutKeepsBadge`), and after a switch of user it stays until the new user's first load.
- **Project chat panel** (`components/ProjectChatPanel.tsx`). It has a second watermark, per project only,
  kept in `sessionStorage`. This watermark drives the panel's own unread counter and its "Mark read" and
  "Jump to latest" buttons. The panel also installs fetched messages and shows an error banner. When the
  `projectId` prop changes, the messages and the watermark are reloaded for the new project, but the previous
  project's error banner stays until the next fetch (`ChatPanel.ChangeProject`).
- **Status badge** (`components/StatusPill.tsx`). A fixed table maps a status label to style classes. A label
  that is not one of the table's own keys gets a fallback, unless it names a property every object inherits
  from `Object.prototype` (`toString`, `constructor`, `__proto__`, …). The table is a plain object literal,
  so the lookup finds the inherited member, `??` keeps it, and the printed function or object ends up in the
  class list. Every caller passes a project status, for which this never happens.

Modelling choices:
- The constants `Sidebar.NavItems` (`Sidebar.tsx:10-17`) and `StatusPill.StatusStyles` (`StatusPill.tsx:3-13`)
  transcribe the source's tables. Their properties are stated by `Sidebar.FilterNavItems`,
  `Sidebar.VisibleToStaff`, `Sidebar.VisibleToEditor`, `Sidebar.NavHrefsDistinct`,
  `StatusPill.TableCoversExactlyTheStatuses` and `StatusPill.SharedClasses`.
- A storage area is a `KeyValueStore` object whose `entries` map the methods update in place.
- Server-side execution has no `window`. It is modelled as a `null` `localStorage` reference.
- `new Date(s).getTime()` is a parameter `parse: string -> Option<int>`. `None` stands for NaN.
- The database query is an input: the rows it would return, already in the query's order. The query's row
  limit is applied in the model.

Things the model shows that are easy to miss:
- The two watermarks behave differently when none is stored. `isUnread` calls every message unread, while the
  panel counts 0 (`ProjectChatPanel.NoWatermarkDivergence`).
- The panel's count includes the user's own messages. The sidebar's count never does.
- The storage key is injective when the user ids, or the project ids, are colon-free. With colons in both,
  two pairs can share a key: `StorageKey("a:b", "c") == StorageKey("a", "b:c")`.
- "Overview" (`/`) matches the path `/` and also every path that starts with `//`. This follows from the
  `pathname.startsWith(href + "/")` test.
- Longest-prefix matching cannot tie. Two matching hrefs of the same length are equal. So the active href does
  not depend on how the sort orders equal lengths.
- The chat query asks for ascending time with a limit of 50. It therefore loads the *oldest* 50 messages.
  Once a project has more than 50, the newest messages never reach the panel, and "Mark read" marks the 50th
  oldest (`ProjectChatPanel.LoadedMessages`). The model keeps this behaviour as written.

## Model

| member | source | states |
|---|---|---|
| `Domain.StatusNameInjective` | video-project-manager-app/types/domain.ts:3-12 | the nine statuses have pairwise distinct names |
| `MessageRead.StorageKey` | video-project-manager-app/lib/messageRead.ts:3-5 | definition without a contract; its layout is stated by `StorageKeyLayout` and its injectivity by `StorageKeyInjective` and `StorageKeyInjectiveForProjects` |
| `MessageRead.StorageKeyLayout` | video-project-manager-app/lib/messageRead.ts:1-5 | the key is `vpm:lastSeen:`, then the user id, a colon and the project id |
| `MessageRead.StorageKeyInjective` | video-project-manager-app/lib/messageRead.ts:3-5 | for colon-free user ids, equal keys come from the same (user, project) pair |
| `MessageRead.StorageKeyInjectiveForProjects` | video-project-manager-app/lib/messageRead.ts:3-5 | for colon-free project ids, equal keys come from the same (user, project) pair |
| `MessageRead.StorageKeyCollision` | video-project-manager-app/lib/messageRead.ts:3-5 | user ids with a colon can make two pairs share one key |
| `MessageRead.GetLastSeenAt` | video-project-manager-app/lib/messageRead.ts:7-10 | null without a window; otherwise present exactly when the key is stored, with the stored value |
| `MessageRead.SetLastSeenAt` | video-project-manager-app/lib/messageRead.ts:12-15 | without a window nothing changes; otherwise the pair's watermark becomes the timestamp, and every other pair keeps its watermark when both user ids, or both project ids, are colon-free |
| `MessageRead.IsUnread` | video-project-manager-app/lib/messageRead.ts:17-24 | definition without a contract; its three cases are stated by `UnreadWithoutWatermark`, `UnparseableIsRead` and `WatermarkSplitsMessages` |
| `MessageRead.UnreadWithoutWatermark` | video-project-manager-app/lib/messageRead.ts:17-19 | a missing or empty watermark makes every message unread, whatever its time |
| `MessageRead.UnreadWithoutWindow` | video-project-manager-app/lib/messageRead.ts:7-19 | server side, every message is unread |
| `MessageRead.UnparseableIsRead` | video-project-manager-app/lib/messageRead.ts:20-22 | with a watermark, an unparseable watermark or message time means "read" |
| `MessageRead.WatermarkSplitsMessages` | video-project-manager-app/lib/messageRead.ts:17-24 | with a parseable watermark, a parseable message is unread iff strictly later; a message at the watermark is read |
| `MessageRead.MarkProjectRead` | video-project-manager-app/lib/messageRead.ts:12-24 | after setting a watermark, that pair's messages are unread iff later than it, and the unread test of every other pair is unchanged when both user ids, or both project ids, are colon-free |
| `Sidebar.NavHrefsDistinct` | video-project-manager-app/components/Sidebar.tsx:10-17 | the six items have pairwise distinct hrefs |
| `Sidebar.VisibleItems` | video-project-manager-app/components/Sidebar.tsx:34 | with no role, all six items; with a role, exactly the items whose roles include it |
| `Sidebar.FilterNavItems` | video-project-manager-app/components/Sidebar.tsx:10-17 | filtering the items keeps each one exactly when the condition holds of it, in declared order |
| `Sidebar.VisibleToStaff` | video-project-manager-app/components/Sidebar.tsx:10-34 | admins and QC see Overview, Projects, Create Project, Messages and Settings, in that order |
| `Sidebar.VisibleToEditor` | video-project-manager-app/components/Sidebar.tsx:10-34 | editors see Overview, Messages, Settings and My Queue, in that order |
| `Sidebar.RoleSpecificItems` | video-project-manager-app/components/Sidebar.tsx:12-34 | My Queue is visible iff the role is editor; editors never see Projects or Create Project |
| `Sidebar.Matches` | video-project-manager-app/components/Sidebar.tsx:36 | a matching href starts the path, and the path goes on, if at all, with `/` |
| `Sidebar.OverviewMatches` | video-project-manager-app/components/Sidebar.tsx:35-37 | `/` matches a path iff the path is `/` or starts with `//` |
| `Sidebar.MatchingHrefsHaveDistinctLengths` | video-project-manager-app/components/Sidebar.tsx:35-39 | two hrefs that match one path and have the same length are equal |
| `Sidebar.FirstLongest` | video-project-manager-app/components/Sidebar.tsx:39 | the element a stable sort by decreasing href length puts first: maximal length, earlier elements strictly shorter |
| `Sidebar.MatchedItems` | video-project-manager-app/components/Sidebar.tsx:35-37 | exactly the visible items whose href matches the path |
| `Sidebar.ActiveHref` | video-project-manager-app/components/Sidebar.tsx:38-39 | null iff no visible item matches; otherwise a matching visible href that every other matching href is strictly shorter than |
| `Sidebar.AtMostOneActive` | video-project-manager-app/components/Sidebar.tsx:93-94 | no two visible items are both rendered active |
| `Sidebar.CountsAsUnread` | video-project-manager-app/components/Sidebar.tsx:61-64 | definition without a contract; `OwnMessagesNeverCounted` and `CountWithoutWatermarks` state what it admits |
| `Sidebar.UnreadCount` | video-project-manager-app/components/Sidebar.tsx:60-65 | the count of rows from someone else, with a non-empty project, that are unread: at most the row count, 0 iff no row qualifies, all iff every row does |
| `Sidebar.OwnMessagesNeverCounted` | video-project-manager-app/components/Sidebar.tsx:62 | removing the user's own rows leaves the count unchanged |
| `Sidebar.CountWithoutWatermarks` | video-project-manager-app/components/Sidebar.tsx:60-65 | with no watermarks, every row from someone else with a non-empty project counts |
| `Sidebar.Badge` | video-project-manager-app/components/Sidebar.tsx:107-111 | definition without a contract; `BadgeOnExactlyOneItem` and `SidebarState.BadgeWithinQueryLimit` state its properties |
| `Sidebar.BadgeOnExactlyOneItem` | video-project-manager-app/components/Sidebar.tsx:93-111 | for every role, Messages is visible and is the only visible item that can carry the badge: a positive count badges exactly one rendered item, a zero count none |
| `Sidebar.SidebarState.BadgeWithinQueryLimit` | video-project-manager-app/components/Sidebar.tsx:107-111 | in a valid state the badge shows at most 400, and no badge appears before the first load |
| `Sidebar.SidebarState.constructor` | video-project-manager-app/components/Sidebar.tsx:33 | the count starts at 0, the effect is mounted, and no load has run |
| `Sidebar.SidebarState.ChangeUser` | video-project-manager-app/components/Sidebar.tsx:33-79 | a new `currentUserId` re-runs the effect (mounted again) and keeps the count |
| `Sidebar.SidebarState.SignOutKeepsBadge` | video-project-manager-app/components/Sidebar.tsx:41-79 | after the prop changes to no user, any later load leaves the badge exactly as it was |
| `Sidebar.SidebarState.LoadUnreadCount` | video-project-manager-app/components/Sidebar.tsx:41-70 | no user or unmounted: unchanged; query error: unchanged; throw: 0; data: the count over the first 400 rows; the count stays at most 400, and 0 until a load has run |
| `Sidebar.SidebarState.Unmount` | video-project-manager-app/components/Sidebar.tsx:75-78 | the effect is no longer mounted, so later loads change nothing |
| `ProjectChatPanel.LastSeenKey` | video-project-manager-app/components/ProjectChatPanel.tsx:26-28 | definition without a contract; `PanelKeyIsNotAUserKey` and `PanelKeyCollision` relate it to the per-user keys |
| `ProjectChatPanel.PanelKeyIsNotAUserKey` | video-project-manager-app/components/ProjectChatPanel.tsx:26-28 | for colon-free project ids, the panel key differs from every per-user read-tracking key |
| `ProjectChatPanel.PanelKeyCollision` | video-project-manager-app/components/ProjectChatPanel.tsx:26-28 | a project id `u:p` spells the per-user key of (u, p) |
| `ProjectChatPanel.LoadedMessages` | video-project-manager-app/components/ProjectChatPanel.tsx:49-68 | a prefix of the rows of at most 50; with more than 50 rows it ends at the 50th oldest |
| `ProjectChatPanel.CountLater` | video-project-manager-app/components/ProjectChatPanel.tsx:89 | at most the number of messages |
| `ProjectChatPanel.CountLaterZero` | video-project-manager-app/components/ProjectChatPanel.tsx:89 | the count is 0 iff no message is strictly later than the watermark |
| `ProjectChatPanel.CountLaterAppend` | video-project-manager-app/components/ProjectChatPanel.tsx:89 | one more message adds 1 iff it is later, whoever sent it |
| `ProjectChatPanel.NothingLaterThanLast` | video-project-manager-app/components/ProjectChatPanel.tsx:53-89 | in ascending time, nothing is later than the last message |
| `ProjectChatPanel.ChatPanel.constructor` | video-project-manager-app/components/ProjectChatPanel.tsx:31-33 | starts with the initial messages, no error and no watermark |
| `ProjectChatPanel.ChatPanel.Resync` | video-project-manager-app/components/ProjectChatPanel.tsx:36-40 | reinstalls the initial messages and loads the watermark from session storage |
| `ProjectChatPanel.ChatPanel.LastMessage` | video-project-manager-app/components/ProjectChatPanel.tsx:85 | absent iff there are no messages; otherwise the last one |
| `ProjectChatPanel.ChatPanel.ChangeProject` | video-project-manager-app/components/ProjectChatPanel.tsx:36-83 | a new project id reinstalls the initial messages and reads the new project's watermark; the error banner is kept |
| `ProjectChatPanel.ChatPanel.UnreadCount` | video-project-manager-app/components/ProjectChatPanel.tsx:86-90 | 0 without a watermark; with a parseable watermark, the number of loaded messages strictly later than it (`CountLater`); positive iff one is; at most the message count |
| `ProjectChatPanel.ChatPanel.MarkRead` | video-project-manager-app/components/ProjectChatPanel.tsx:102-107 | with messages, the stored and in-state watermark become the last message's time; with none, nothing changes |
| `ProjectChatPanel.ChatPanel.JumpToLatest` | video-project-manager-app/components/ProjectChatPanel.tsx:92-100 | the same watermark update as MarkRead |
| `ProjectChatPanel.ChatPanel.ApplyFetch` | video-project-manager-app/components/ProjectChatPanel.tsx:56-69 | an error keeps the messages and sets the error; data replaces the messages (first 50) and clears the error |
| `ProjectChatPanel.ChatPanel.ReportNotConfigured` | video-project-manager-app/components/ProjectChatPanel.tsx:74-76 | a failed client set-up shows "Supabase not configured" |
| `ProjectChatPanel.NothingUnreadAfterMarkRead` | video-project-manager-app/components/ProjectChatPanel.tsx:53-107 | after mark-read over messages in ascending time, the unread count is 0 |
| `ProjectChatPanel.NewMessageAfterMarkRead` | video-project-manager-app/components/ProjectChatPanel.tsx:86-107 | over messages in time order plus one more, the count later than the last marked message's time is 1 iff the new one is strictly later |
| `ProjectChatPanel.PanelCountsNewMessageAfterMarkRead` | video-project-manager-app/components/ProjectChatPanel.tsx:86-107 | with the watermark set to the last marked message's time and one message appended, the panel's own count is 1 iff that message is strictly later (0 for an empty watermark) |
| `ProjectChatPanel.NoWatermarkDivergence` | video-project-manager-app/components/ProjectChatPanel.tsx:87 | with no watermark the panel counts 0, while `isUnread` calls every message unread |
| `ProjectChatPanel.MarkReadLeavesReadTracking` | video-project-manager-app/components/ProjectChatPanel.tsx:102-107 | marking read in the panel leaves the sidebar's `isUnread` unchanged |
| `StatusPill.Classes` | video-project-manager-app/components/StatusPill.tsx:3-19 | the table entry for the table's own keys; the printed inherited member for `Object.prototype`'s names (`[object Object]` for `__proto__`); else `bg-sand-100 text-ink-700` |
| `StatusPill.OnlyTableClassesStartWithBackground` | video-project-manager-app/components/StatusPill.tsx:3-17 | a label's classes start with `b` (a background class) exactly when the label is not an inherited property name |
| `StatusPill.FallbackIsATableEntry` | video-project-manager-app/components/StatusPill.tsx:4-17 | the fallback classes are NEW's entry |
| `StatusPill.TableClassesExactlyForOwnNames` | video-project-manager-app/components/StatusPill.tsx:3-17 | a label is styled with one of the table's class lists exactly when it is not an inherited property name |
| `StatusPill.Render` | video-project-manager-app/components/StatusPill.tsx:15-22 | the label is shown unchanged; its classes are one of the table's class lists exactly when the label is not an inherited property name |
| `StatusPill.TableCoversExactlyTheStatuses` | video-project-manager-app/components/StatusPill.tsx:3-13 | every one of the nine statuses has an entry, and every entry is a status |
| `StatusPill.UnknownLabelFallsBack` | video-project-manager-app/components/StatusPill.tsx:17 | a label gets the fallback classes iff it is NEW, or is neither a status nor an inherited property name |
| `StatusPill.OnlyNewLooksLikeFallback` | video-project-manager-app/components/StatusPill.tsx:4-17 | among statuses, exactly NEW is styled like the fallback |
| `StatusPill.SharedClasses` | video-project-manager-app/components/StatusPill.tsx:3-13 | two different statuses share classes iff they are ASSIGNED and DELIVERED |

## Left out

- Supabase queries and `setInterval` polling. These are network I/O and timers. When React mounts and unmounts
  the components is also left out; the effects of mounting and unmounting on state are modelled by
  `ChatPanel.Resync`, `ChatPanel.ChangeProject`, `SidebarState.constructor`, `SidebarState.ChangeUser` and
  `SidebarState.Unmount`.
- Requests still in flight from an earlier effect run. Each load or fetch is modelled as a run of the current
  effect. The sidebar discards a stale load through its `mounted` flag. The chat panel has no such guard, so a
  fetch for the previous project that resolves after a switch would install that project's messages; the
  model does not capture this interleaving.
  A query result is an input (`QueryOutcome`, `FetchOutcome`). Each poll is one call of
  `LoadUnreadCount` or `ApplyFetch`.
- The database's ordering (`order("created_at", …)`). The rows given to the model are assumed to be in the
  query's order already. Lemmas that need ascending time state it as `InTimeOrder`.
- `Date` parsing. It is an uninterpreted `parse` parameter; NaN is `None`.
- `formatTime` (`toLocaleTimeString`). It is locale formatting.
- The `sender:profiles(full_name)` join and its normalisation into `sender_name`. The rows arrive as
  `ChatMessage` values.
- The scroll in `handleJumpToLatest`. It is a DOM effect.
- Sending messages (`onSend`). That server action is not part of this model.
- Rendering: the "signed in" card, the message list, and the conditions under which the buttons show.
- `StatusPill.NativeFunctionText`: writes the printed text of an inherited method in the V8 form
  (`function toString() { [native code] }`). The language leaves the exact text of built-in functions to the
  engine, so other engines may space it differently.
- `StatusPill.Render`: takes a string, while the source accepts any React node and converts it with
  `String(status)`. Non-string nodes are not modelled.
- `Sidebar.ActiveHref`: the comparator sort is not modelled step by step. It is modelled by the element a
  stable sort puts first (`FirstLongest`). `MatchingHrefsHaveDistinctLengths` shows that the chosen href is the
  same under any tie-breaking.

=== FILE: Domain.dfy ===
/** The shared domain vocabulary: user roles and project statuses, with the names statuses are shown under. */
module Domain {

  datatype Role = Admin | Qc | Editor

  datatype ProjectStatus =
    | New | Assigned | Editing | Qc | RevisionRequested | Ready | Delivered | Archived | OnHold

  /** The string a status is stored and displayed as. */
  function StatusName(s: ProjectStatus): string {
    match s
    case New => "NEW"
    case Assigned => "ASSIGNED"
    case Editing => "EDITING"
    case Qc => "QC"
    case RevisionRequested => "REVISION_REQUESTED"
    case Ready => "READY"
    case Delivered => "DELIVERED"
    case Archived => "ARCHIVED"
    case OnHold => "ON_HOLD"
  }

  /** Distinct statuses have distinct names, so a name identifies its status. */
  lemma StatusNameInjective(a: ProjectStatus, b: ProjectStatus)
    ensures StatusName(a) == StatusName(b) <==> a == b
  {
  }
}

=== FILE: MessageRead.dfy ===
/**
 * The per-user, per-project "last seen" watermark kept in `localStorage`, and the unread test built on it.
 * A `null` store stands for server-side execution, where `window` (and so `localStorage`) does not exist.
 */
module MessageRead {
  import opened Wrappers
  import opened WebStorage

  /** `new Date(s).getTime()`: milliseconds since the epoch, or None where JavaScript yields NaN. */
  type DateParser = string -> Option<int>

  const Namespace: string := "vpm:lastSeen"

  /** The storage key of the watermark of `userId` for `projectId`. */
  function StorageKey(userId: string, projectId: string): string {
    Namespace + ":" + userId + ":" + projectId
  }

  /** The key reads back as namespace, user id and project id, each followed by a colon but the last. */
  lemma StorageKeyLayout(userId: string, projectId: string)
    ensures var key := StorageKey(userId, projectId);
      && |key| == |Namespace| + |userId| + |projectId| + 2
      && key[..|Namespace| + 1] == "vpm:lastSeen:"
      && key[|Namespace| + 1..|Namespace| + 1 + |userId|] == userId
      && key[|Namespace| + 1 + |userId|] == ':'
      && key[|Namespace| + 2 + |userId|..] == projectId
  {
  }

  /** Keys of user ids without a colon determine the user and the project they were built from. */
  lemma StorageKeyInjective(u1: string, p1: string, u2: string, p2: string)
    requires ':' !in u1 && ':' !in u2
    requires StorageKey(u1, p1) == StorageKey(u2, p2)
    ensures u1 == u2 && p1 == p2
  {
    var k1, k2 := StorageKey(u1, p1), StorageKey(u2, p2);
    var n := |Namespace| + 1;
    StorageKeyLayout(u1, p1);
    StorageKeyLayout(u2, p2);
    if |u1| != |u2| {
      assert false;
    }
    assert u1 == k1[n..n + |u1|] == k2[n..n + |u2|] == u2;
  }

  /** Keys of project ids without a colon also determine the user and the project they were built from. */
  lemma StorageKeyInjectiveForProjects(u1: string, p1: string, u2: string, p2: string)
    requires ':' !in p1 && ':' !in p2
    requires StorageKey(u1, p1) == StorageKey(u2, p2)
    ensures u1 == u2 && p1 == p2
  {
    var k := StorageKey(u1, p1);
    var n := |Namespace| + 1;
    StorageKeyLayout(u1, p1);
    StorageKeyLayout(u2, p2);
    if |p1| != |p2| {
      assert false;
    }
    assert u1 == k[n..n + |u1|] == u2;
  }

  /** Equal keys come from the same pair when both user ids, or both project ids, are colon-free. */
  predicate KeysSeparate(u1: string, p1: string, u2: string, p2: string) {
    (':' !in u1 && ':' !in u2) || (':' !in p1 && ':' !in p2)
  }

  /** With colons allowed in user ids, two different (user, project) pairs can share one key. */
  lemma StorageKeyCollision()
    ensures StorageKey("a:b", "c") == StorageKey("a", "b:c")
  {
  }

  /** `getLastSeenAt`: null without a window, otherwise whatever `localStorage` holds under the key. */
  function GetLastSeenAt(local: KeyValueStore?, userId: string, projectId: string): (r: Option<string>)
    reads local
    ensures local == null ==> r == None
    ensures local != null ==> (r.Some? <==> StorageKey(userId, projectId) in local.entries)
    ensures r.Some? ==> local != null && r.value == local.entries[StorageKey(userId, projectId)]
  {
    if local == null then None else local.GetItem(StorageKey(userId, projectId))
  }

  /**
   * `setLastSeenAt`: without a window nothing happens; otherwise the watermark of (`userId`, `projectId`)
   * becomes `timestamp` and every other pair whose key is kept apart from it (`KeysSeparate`) keeps its
   * watermark.
   */
  method SetLastSeenAt(local: KeyValueStore?, userId: string, projectId: string, timestamp: string)
    modifies local
    ensures local != null ==> local.entries == old(local.entries)[StorageKey(userId, projectId) := timestamp]
    ensures local != null ==> GetLastSeenAt(local, userId, projectId) == Some(timestamp)
    ensures local == null ==> GetLastSeenAt(local, userId, projectId) == None
    ensures forall u, p :: KeysSeparate(userId, projectId, u, p) && (u != userId || p != projectId) ==>
              GetLastSeenAt(local, u, p) == old(GetLastSeenAt(local, u, p))
  {
    if local == null {
      return;
    }
    local.SetItem(StorageKey(userId, projectId), timestamp);
    forall u, p | KeysSeparate(userId, projectId, u, p) && (u != userId || p != projectId)
      ensures GetLastSeenAt(local, u, p) == old(GetLastSeenAt(local, u, p))
    {
      if StorageKey(u, p) == StorageKey(userId, projectId) {
        if ':' !in u && ':' !in userId {
          StorageKeyInjective(u, p, userId, projectId);
        } else {
          StorageKeyInjectiveForProjects(u, p, userId, projectId);
        }
      }
    }
  }

  /** JavaScript truthiness of the stored watermark: null and the empty string are falsy. */
  predicate HasWatermark(lastSeenAt: Option<string>) {
    lastSeenAt.Some? && lastSeenAt.value != ""
  }

  /**
   * `isUnread`: with no (or an empty) watermark every message is unread; if either time fails to parse the
   * message is read; otherwise it is unread when stamped strictly after the watermark.
   */
  predicate IsUnread(local: KeyValueStore?, parse: DateParser, userId: string, projectId: string, createdAt: string)
    reads local
  {
    var lastSeenAt := GetLastSeenAt(local, userId, projectId);
    if !HasWatermark(lastSeenAt) then true
    else match (parse(lastSeenAt.value), parse(createdAt))
      case (Some(seen), Some(created)) => created > seen
      case _ => false
  }

  /** Without a watermark (missing or empty), whatever the message's time, it is unread. */
  lemma UnreadWithoutWatermark(local: KeyValueStore?, parse: DateParser, userId: string, projectId: string, createdAt: string)
    requires !HasWatermark(GetLastSeenAt(local, userId, projectId))
    ensures IsUnread(local, parse, userId, projectId, createdAt)
  {
  }

  /** Server side (no window) every message is unread. */
  lemma UnreadWithoutWindow(parse: DateParser, userId: string, projectId: string, createdAt: string)
    ensures IsUnread(null, parse, userId, projectId, createdAt)
  {
  }

  /** With a watermark, a message whose time or watermark fails to parse is never unread. */
  lemma UnparseableIsRead(local: KeyValueStore?, parse: DateParser, userId: string, projectId: string, createdAt: string)
    requires HasWatermark(GetLastSeenAt(local, userId, projectId))
    requires parse(GetLastSeenAt(local, userId, projectId).value).None? || parse(createdAt).None?
    ensures !IsUnread(local, parse, userId, projectId, createdAt)
  {
  }

  /**
   * A watermark `t` that parses to time `seen` splits the parseable messages: those stamped at or before
   * `seen` are read, those after it unread. With `SetLastSeenAt`, this is the state right after marking.
   */
  lemma WatermarkSplitsMessages(local: KeyValueStore?, parse: DateParser, userId: string, projectId: string,
                                t: string, createdAt: string)
    requires GetLastSeenAt(local, userId, projectId) == Some(t) && t != ""
    requires parse(t).Some? && parse(createdAt).Some?
    ensures IsUnread(local, parse, userId, projectId, createdAt) <==> parse(createdAt).value > parse(t).value
  {
  }

  /** Marking one project read leaves the unread test of every pair kept apart from it as it was. */
  method MarkProjectRead(local: KeyValueStore?, parse: DateParser, userId: string, projectId: string,
                         timestamp: string, otherUser: string, otherProject: string, createdAt: string)
    requires KeysSeparate(userId, projectId, otherUser, otherProject) && (otherUser != userId || otherProject != projectId)
    modifies local
    ensures IsUnread(local, parse, otherUser, otherProject, createdAt) ==
            old(IsUnread(local, parse, otherUser, otherProject, createdAt))
    ensures timestamp != "" && parse(timestamp).Some? && parse(createdAt).Some? && local != null ==>
              (IsUnread(local, parse, userId, projectId, createdAt) <==> parse(createdAt).value > parse(timestamp).value)
  {
    SetLastSeenAt(local, userId, projectId, timestamp);
  }
}

=== FILE: ProjectChatPanel.dfy ===
/**
 * The project chat panel: the loaded messages, the fetch error banner, and a second, per-project "last seen"
 * watermark kept in `sessionStorage` that drives the panel's own unread counter.
 */
module ProjectChatPanel {
  import opened Wrappers
  import opened Seqs
  import opened WebStorage
  import opened MessageRead

  datatype ChatMessage = ChatMessage(
    id: string,
    senderId: Option<string>,
    senderName: Option<string>,
    createdAt: string,
    message: string)

  /** The panel's watermark key: the project id alone, with no user id. */
  function LastSeenKey(projectId: string): string {
    "vpm:lastSeen:" + projectId
  }

  /** For project ids without a colon, the panel's key is never a per-user key of the read-tracking store. */
  lemma PanelKeyIsNotAUserKey(projectId: string, userId: string, otherProject: string)
    requires ':' !in projectId
    ensures LastSeenKey(projectId) != StorageKey(userId, otherProject)
  {
    if LastSeenKey(projectId) == StorageKey(userId, otherProject) {
      StorageKeyLayout(userId, otherProject);
      assert false;
    }
  }

  /** A project id holding a colon can spell out a per-user key. */
  lemma PanelKeyCollision(userId: string, projectId: string)
    ensures LastSeenKey(userId + ":" + projectId) == StorageKey(userId, projectId)
  {
  }

  /** The number of rows the message query returns: the first 50 in ascending time. */
  const FetchLimit: nat := 50

  /**
   * The list a successful fetch installs, from the project's messages in ascending time (null data reads
   * as no rows). Being the first 50, once a project holds more than 50 messages the last one loaded is the
   * 50th oldest, and newer messages never reach the panel.
   */
  function LoadedMessages(rows: Option<seq<ChatMessage>>): (loaded: seq<ChatMessage>)
    ensures rows.None? ==> loaded == []
    ensures rows.Some? ==> loaded <= rows.value
    ensures |loaded| <= FetchLimit
    ensures rows.Some? && |rows.value| <= FetchLimit ==> loaded == rows.value
    ensures rows.Some? && |rows.value| > FetchLimit ==>
              |loaded| == FetchLimit && loaded[|loaded| - 1] == rows.value[FetchLimit - 1]
  {
    Take(rows.GetOr([]), FetchLimit)
  }

  /** The panel's time test: the message parses to a time strictly after `seen` (NaN compares false). */
  predicate IsLater(parse: DateParser, seen: int, m: ChatMessage) {
    match parse(m.createdAt)
    case Some(created) => created > seen
    case None => false
  }

  function LaterThan(parse: DateParser, seen: int): ChatMessage -> bool {
    (m: ChatMessage) => IsLater(parse, seen, m)
  }

  /** How many of `messages` are stamped after `seen`, whoever sent them. */
  function CountLater(messages: seq<ChatMessage>, parse: DateParser, seen: int): (n: nat)
    ensures n <= |messages|
  {
    |Filter(messages, LaterThan(parse, seen))|
  }

  /** The count is zero exactly when no message is stamped after `seen`. */
  lemma CountLaterZero(messages: seq<ChatMessage>, parse: DateParser, seen: int)
    ensures CountLater(messages, parse, seen) == 0 <==> forall i :: 0 <= i < |messages| ==> !IsLater(parse, seen, messages[i])
  {
    FilterEmpty(messages, LaterThan(parse, seen));
  }

  /** A newly loaded message adds one exactly when it is later; its sender plays no part. */
  lemma CountLaterAppend(messages: seq<ChatMessage>, m: ChatMessage, parse: DateParser, seen: int)
    ensures CountLater(messages + [m], parse, seen) ==
            CountLater(messages, parse, seen) + (if IsLater(parse, seen, m) then 1 else 0)
  {
    FilterAppend(messages, [m], LaterThan(parse, seen));
    FilterCons(m, [], LaterThan(parse, seen));
  }

  /** Every message parses, in non-decreasing time: the order the query returns them in. */
  ghost predicate InTimeOrder(messages: seq<ChatMessage>, parse: DateParser) {
    && (forall i :: 0 <= i < |messages| ==> parse(messages[i].createdAt).Some?)
    && (forall i, j :: 0 <= i < j < |messages| ==>
          parse(messages[i].createdAt).value <= parse(messages[j].createdAt).value)
  }

  /** In time order, nothing is later than the last message. */
  lemma NothingLaterThanLast(messages: seq<ChatMessage>, parse: DateParser)
    requires messages != [] && InTimeOrder(messages, parse)
    ensures CountLater(messages, parse, parse(messages[|messages| - 1].createdAt).value) == 0
  {
    CountLaterZero(messages, parse, parse(messages[|messages| - 1].createdAt).value);
  }

  /** What the message query produced. */
  datatype FetchOutcome =
    | FetchFailed(message: string)               // the response carried an error
    | Fetched(rows: Option<seq<ChatMessage>>)     // the project's messages in ascending time, before the limit

  class ChatPanel {
    var projectId: string
    var messages: seq<ChatMessage>
    var error: Option<string>
    var lastSeenAt: Option<string>

    /** The initial state: the server-rendered messages, no error, no watermark yet. */
    constructor (projectId: string, initialMessages: seq<ChatMessage>)
      ensures this.projectId == projectId && messages == initialMessages && error == None && lastSeenAt == None
    {
      this.projectId := projectId;
      messages := initialMessages;
      error := None;
      lastSeenAt := None;
    }

    /** The mount effect: reinstall the server-rendered messages and read the stored watermark. */
    method Resync(initialMessages: seq<ChatMessage>, session: KeyValueStore)
      modifies this`messages, this`lastSeenAt
      ensures messages == initialMessages && lastSeenAt == session.GetItem(LastSeenKey(projectId))
    {
      messages := initialMessages;
      lastSeenAt := session.GetItem(LastSeenKey(projectId));
    }

    /**
     * The `projectId` prop changes: both effects re-run for the new project. The first reinstalls the
     * server-rendered messages and reads the new project's watermark; the error banner is kept, since
     * only a later fetch or client failure sets it.
     */
    method ChangeProject(newProjectId: string, initialMessages: seq<ChatMessage>, session: KeyValueStore)
      modifies this`projectId, this`messages, this`lastSeenAt
      ensures projectId == newProjectId && error == old(error)
      ensures messages == initialMessages && lastSeenAt == session.GetItem(LastSeenKey(newProjectId))
    {
      projectId := newProjectId;
      Resync(initialMessages, session);
    }

    /** `lastMessage`: the last loaded message, absent when nothing is loaded. */
    function LastMessage(): (last: Option<ChatMessage>)
      reads this
      ensures last.None? <==> messages == []
      ensures last.Some? ==> last.value == messages[|messages| - 1]
    {
      if messages == [] then None else Some(messages[|messages| - 1])
    }

    /**
     * `unreadCount`: 0 with no (or an empty) watermark, or one that does not parse; otherwise how many loaded
     * messages, the user's own included, are stamped strictly after the watermark.
     */
    function UnreadCount(parse: DateParser): (n: nat)
      reads this
      ensures n <= |messages|
      ensures !HasWatermark(lastSeenAt) ==> n == 0
      ensures HasWatermark(lastSeenAt) && parse(lastSeenAt.value).Some? ==>
                n == CountLater(messages, parse, parse(lastSeenAt.value).value)
      ensures n > 0 <==> HasWatermark(lastSeenAt) && parse(lastSeenAt.value).Some? &&
                         exists i :: 0 <= i < |messages| && IsLater(parse, parse(lastSeenAt.value).value, messages[i])
    {
      if !HasWatermark(lastSeenAt) then 0
      else match parse(lastSeenAt.value)
        case None => 0
        case Some(seen) =>
          CountLaterZero(messages, parse, seen);
          CountLater(messages, parse, seen)
    }

    /** `handleMarkRead`: with a last message, store its time as the watermark, in session storage and in state. */
    method MarkRead(session: KeyValueStore)
      modifies this`lastSeenAt, session
      ensures messages == [] ==> lastSeenAt == old(lastSeenAt) && session.entries == old(session.entries)
      ensures messages != [] ==>
                && lastSeenAt == Some(messages[|messages| - 1].createdAt)
                && session.entries == old(session.entries)[LastSeenKey(projectId) := messages[|messages| - 1].createdAt]
    {
      match LastMessage()
      case None =>
      case Some(last) =>
        session.SetItem(LastSeenKey(projectId), last.createdAt);
        lastSeenAt := Some(last.createdAt);
    }

    /** `handleJumpToLatest`: the same watermark update as `MarkRead` (the scroll is not modelled). */
    method JumpToLatest(session: KeyValueStore)
      modifies this`lastSeenAt, session
      ensures messages == [] ==> lastSeenAt == old(lastSeenAt) && session.entries == old(session.entries)
      ensures messages != [] ==>
                && lastSeenAt == Some(messages[|messages| - 1].createdAt)
                && session.entries == old(session.entries)[LastSeenKey(projectId) := messages[|messages| - 1].createdAt]
    {
      MarkRead(session);
    }

    /** `fetchMessages` resolving: an error keeps the list and sets the banner; data replaces the list and clears it. */
    method ApplyFetch(outcome: FetchOutcome)
      modifies this`messages, this`error
      ensures outcome.FetchFailed? ==> messages == old(messages) && error == Some(outcome.message)
      ensures outcome.Fetched? ==> messages == LoadedMessages(outcome.rows) && error == None
    {
      match outcome
      case FetchFailed(message) =>
        error := Some(message);
      case Fetched(rows) =>
        messages := LoadedMessages(rows);
        error := None;
    }

    /** Creating the client threw: the banner reports the missing configuration; the list is kept. */
    method ReportNotConfigured()
      modifies this`error
      ensures error == Some("Supabase not configured")
    {
      error := Some("Supabase not configured");
    }
  }

  /** After marking read over messages in time order, nothing is unread. */
  lemma NothingUnreadAfterMarkRead(panel: ChatPanel, parse: DateParser)
    requires panel.messages != [] && InTimeOrder(panel.messages, parse)
    requires panel.lastSeenAt == Some(panel.messages[|panel.messages| - 1].createdAt)
    ensures panel.UnreadCount(parse) == 0
  {
    NothingLaterThanLast(panel.messages, parse);
  }

  /**
   * After marking read, a newly fetched list that extends the marked one by a message counts exactly that
   * message when it is strictly later than the watermark, whoever sent it.
   */
  lemma NewMessageAfterMarkRead(marked: seq<ChatMessage>, m: ChatMessage, parse: DateParser)
    requires marked != [] && InTimeOrder(marked, parse)
    ensures var seen := parse(marked[|marked| - 1].createdAt).value;
      CountLater(marked + [m], parse, seen) == if IsLater(parse, seen, m) then 1 else 0
  {
    NothingLaterThanLast(marked, parse);
    CountLaterAppend(marked, m, parse, parse(marked[|marked| - 1].createdAt).value);
  }

  /**
   * The panel's own count after marking read: once a message arrives after the marked list, the panel
   * counts 1 exactly when that message is strictly later than the watermark (an empty watermark counts 0).
   */
  lemma PanelCountsNewMessageAfterMarkRead(panel: ChatPanel, marked: seq<ChatMessage>, m: ChatMessage, parse: DateParser)
    requires marked != [] && InTimeOrder(marked, parse)
    requires panel.lastSeenAt == Some(marked[|marked| - 1].createdAt)
    requires panel.messages == marked + [m]
    ensures var t := marked[|marked| - 1].createdAt;
      panel.UnreadCount(parse) == if t != "" && IsLater(parse, parse(t).value, m) then 1 else 0
  {
    NewMessageAfterMarkRead(marked, m, parse);
  }

  /** With no watermark the panel counts nothing, while the read-tracking store calls every message unread. */
  lemma NoWatermarkDivergence(panel: ChatPanel, local: KeyValueStore?, parse: DateParser, userId: string)
    requires panel.lastSeenAt == None && GetLastSeenAt(local, userId, panel.projectId) == None
    ensures panel.UnreadCount(parse) == 0
    ensures forall i :: 0 <= i < |panel.messages| ==>
              IsUnread(local, parse, userId, panel.projectId, panel.messages[i].createdAt)
  {
  }

  /** Marking read in the panel writes session storage only, so the sidebar's unread test is unaffected. */
  method MarkReadLeavesReadTracking(panel: ChatPanel, session: KeyValueStore, local: KeyValueStore?,
                                    parse: DateParser, userId: string, projectId: string, createdAt: string)
    requires local != session
    modifies panel, session
    ensures IsUnread(local, parse, userId, projectId, createdAt) == old(IsUnread(local, parse, userId, projectId, createdAt))
  {
    panel.MarkRead(session);
  }
}

=== FILE: Seqs.dfy ===
/** Sequence helpers shared by the components: `Array.prototype.filter` and `.slice(0, n)`. */
module Seqs {

  /** The elements of `xs` that satisfy `keep`, in their original order. */
  function Filter<T(!new)>(xs: seq<T>, keep: T -> bool): (r: seq<T>)
    ensures |r| <= |xs|
  {
    if xs == [] then []
    else if keep(xs[0]) then [xs[0]] + Filter(xs[1..], keep)
    else Filter(xs[1..], keep)
  }

  /** An element survives the filter exactly when it occurs in the input and satisfies the condition. */
  lemma {:induction false} FilterMember<T(!new)>(xs: seq<T>, keep: T -> bool, x: T)
    ensures x in Filter(xs, keep) <==> x in xs && keep(x)
  {
    if xs != [] {
      FilterMember(xs[1..], keep, x);
      assert xs == [xs[0]] + xs[1..];
    }
  }

  /** `FilterMember` for every element at once. */
  lemma FilterMembers<T(!new)>(xs: seq<T>, keep: T -> bool)
    ensures forall x :: x in Filter(xs, keep) <==> x in xs && keep(x)
  {
    forall x {
      FilterMember(xs, keep, x);
    }
  }

  /** Filtering a sequence with a known head: the head if it is kept, then the filtered tail. */
  lemma FilterCons<T(!new)>(x: T, xs: seq<T>, keep: T -> bool)
    ensures Filter([x] + xs, keep) == (if keep(x) then [x] else []) + Filter(xs, keep)
  {
    assert ([x] + xs)[1..] == xs;
  }

  /** Filtering distributes over concatenation, so the relative order of kept elements is preserved. */
  lemma {:induction false} FilterAppend<T(!new)>(xs: seq<T>, ys: seq<T>, keep: T -> bool)
    ensures Filter(xs + ys, keep) == Filter(xs, keep) + Filter(ys, keep)
  {
    if xs == [] {
      assert xs + ys == ys;
    } else {
      assert (xs + ys)[1..] == xs[1..] + ys;
      FilterAppend(xs[1..], ys, keep);
    }
  }

  /** Nothing is kept exactly when no element satisfies the condition. */
  lemma {:induction false} FilterEmpty<T(!new)>(xs: seq<T>, keep: T -> bool)
    ensures Filter(xs, keep) == [] <==> forall i :: 0 <= i < |xs| ==> !keep(xs[i])
  {
    if xs != [] {
      FilterEmpty(xs[1..], keep);
      assert forall i :: 1 <= i < |xs| ==> xs[i] == xs[1..][i - 1];
    }
  }

  /** `xs.slice(0, n)`: the first `n` elements, or all of them when there are fewer. */
  function Take<T>(xs: seq<T>, n: nat): (r: seq<T>)
    ensures |r| == if |xs| < n then |xs| else n
    ensures r <= xs
  {
    if |xs| <= n then xs else xs[..n]
  }
}

=== FILE: Sidebar.dfy ===
/**
 * The navigation sidebar: which items a role sees, which one is highlighted for the current path, and the
 * unread-messages badge computed from the latest message rows.
 */
module Sidebar {
  import opened Wrappers
  import opened Seqs
  import opened Domain
  import opened WebStorage
  import opened MessageRead

  datatype NavItem = NavItem(href: string, caption: string, roles: seq<Role>)

  const Overview := NavItem("/", "Overview", [Admin, Role.Qc, Editor])
  const Projects := NavItem("/projects", "Projects", [Admin, Role.Qc])
  const CreateProject := NavItem("/projects/new", "Create Project", [Admin, Role.Qc])
  const Messages := NavItem("/messages", "Messages", [Admin, Role.Qc, Editor])
  const Settings := NavItem("/settings", "Settings", [Admin, Role.Qc, Editor])
  const MyQueue := NavItem("/my-queue", "My Queue", [Editor])

  /** The six navigation items, in display order. */
  const NavItems: seq<NavItem> := [Overview, Projects, CreateProject, Messages, Settings, MyQueue]

  /** The filter condition for `role`: the item lists the role among its roles. */
  function ShownTo(role: Role): NavItem -> bool {
    (x: NavItem) => role in x.roles
  }

  /** The items shown: those whose roles include `role`, or all of them while the role is unknown. */
  function VisibleItems(role: Option<Role>): (items: seq<NavItem>)
    ensures role.None? ==> items == NavItems
    ensures role.Some? ==> forall x :: x in items <==> x in NavItems && role.value in x.roles
  {
    if role.None? then NavItems
    else
      FilterMembers(NavItems, ShownTo(role.value));
      Filter(NavItems, ShownTo(role.value))
  }

  /** A one-item filter: the item if it is kept, else nothing. */
  function Kept(x: NavItem, keep: NavItem -> bool): seq<NavItem> {
    if keep(x) then [x] else []
  }

  /** Filtering the items keeps each one exactly when the condition holds of it, in display order. */
  lemma FilterNavItems(keep: NavItem -> bool)
    ensures Filter(NavItems, keep) ==
      Kept(Overview, keep) + (Kept(Projects, keep) + (Kept(CreateProject, keep) +
      (Kept(Messages, keep) + (Kept(Settings, keep) + Kept(MyQueue, keep)))))
  {
    var tail5 := [MyQueue];
    var tail4 := [Settings] + tail5;
    var tail3 := [Messages] + tail4;
    var tail2 := [CreateProject] + tail3;
    var tail1 := [Projects] + tail2;
    assert NavItems == [Overview] + tail1;
    FilterCons(MyQueue, [], keep);
    assert tail5 == [MyQueue] + [];
    assert Filter(tail5, keep) == Kept(MyQueue, keep);
    FilterCons(Settings, tail5, keep);
    FilterCons(Messages, tail4, keep);
    FilterCons(CreateProject, tail3, keep);
    FilterCons(Projects, tail2, keep);
    FilterCons(Overview, tail1, keep);
  }

  /** Admins and QC staff see every item but "My Queue", in declared order. */
  lemma VisibleToStaff(role: Role)
    requires role != Editor
    ensures VisibleItems(Some(role)) == [Overview, Projects, CreateProject, Messages, Settings]
  {
    var keep := ShownTo(role);
    assert Kept(Overview, keep) == [Overview] && Kept(Projects, keep) == [Projects];
    assert Kept(CreateProject, keep) == [CreateProject] && Kept(Messages, keep) == [Messages];
    assert Kept(Settings, keep) == [Settings] && Kept(MyQueue, keep) == [];
    FilterNavItems(keep);
    assert Filter(NavItems, keep) == [Overview, Projects, CreateProject, Messages, Settings];
  }

  /** Editors see Overview, Messages, Settings and My Queue, in declared order. */
  lemma VisibleToEditor()
    ensures VisibleItems(Some(Editor)) == [Overview, Messages, Settings, MyQueue]
  {
    var keep := ShownTo(Editor);
    assert Kept(Overview, keep) == [Overview] && Kept(Projects, keep) == [];
    assert Kept(CreateProject, keep) == [] && Kept(Messages, keep) == [Messages];
    assert Kept(Settings, keep) == [Settings] && Kept(MyQueue, keep) == [MyQueue];
    FilterNavItems(keep);
    assert Filter(NavItems, keep) == [Overview, Messages, Settings, MyQueue];
  }

  /** "My Queue" is shown only to editors; "Projects" and "Create Project" never are. */
  lemma RoleSpecificItems(role: Role)
    ensures MyQueue in VisibleItems(Some(role)) <==> role == Editor
    ensures role == Editor ==> Projects !in VisibleItems(Some(role)) && CreateProject !in VisibleItems(Some(role))
  {
  }

  /** An item matches the path when the path is its href or lies below it; its href then starts the path. */
  predicate Matches(pathname: string, href: string)
    ensures Matches(pathname, href) ==> href <= pathname && (|href| < |pathname| ==> pathname[|href|] == '/')
  {
    pathname == href || href + "/" <= pathname
  }

  /** "Overview" (`/`) matches the path `/` and, through the `/` + `/` prefix, only paths starting with `//`. */
  lemma OverviewMatches(pathname: string)
    ensures Matches(pathname, "/") <==> pathname == "/" || "//" <= pathname
  {
  }

  /** Two hrefs of the same length that both match one path are the same href. */
  lemma MatchingHrefsHaveDistinctLengths(pathname: string, h1: string, h2: string)
    requires Matches(pathname, h1) && Matches(pathname, h2) && |h1| == |h2|
    ensures h1 == h2
  {
    assert h1 == pathname[..|h1|];
    assert h2 == pathname[..|h2|];
  }

  /**
   * The position a stable sort by decreasing href length brings to the front: an item of maximal href
   * length, and the first such one.
   */
  function FirstLongest(items: seq<NavItem>): (k: nat)
    requires items != []
    ensures k < |items|
    ensures forall j :: 0 <= j < |items| ==> |items[j].href| <= |items[k].href|
    ensures forall j :: 0 <= j < k ==> |items[j].href| < |items[k].href|
  {
    if |items| == 1 then 0
    else
      var k := FirstLongest(items[1..]);
      if |items[k + 1].href| > |items[0].href| then k + 1 else 0
  }

  /** The visible items that match the path, in display order. */
  function MatchedItems(role: Option<Role>, pathname: string): (items: seq<NavItem>)
    ensures forall x :: x in items <==> x in VisibleItems(role) && Matches(pathname, x.href)
  {
    FilterMembers(VisibleItems(role), (x: NavItem) => Matches(pathname, x.href));
    Filter(VisibleItems(role), (x: NavItem) => Matches(pathname, x.href))
  }

  /**
   * `activeHref`: null when no visible item matches; otherwise the href of a matching visible item that
   * every other match is strictly shorter than, so the choice does not depend on how the sort breaks ties.
   */
  function ActiveHref(role: Option<Role>, pathname: string): (active: Option<string>)
    ensures active.None? <==> forall x :: x in VisibleItems(role) ==> !Matches(pathname, x.href)
    ensures active.Some? ==> exists x :: x in VisibleItems(role) && Matches(pathname, x.href) && x.href == active.value
    ensures active.Some? ==>
              forall x :: (x in VisibleItems(role) && Matches(pathname, x.href) && x.href != active.value
                ==> |x.href| < |active.value|)
  {
    var matched := MatchedItems(role, pathname);
    if matched == [] then None
    else
      var best := matched[FirstLongest(matched)];
      assert best in matched;
      forall x | x in VisibleItems(role) && Matches(pathname, x.href) && x.href != best.href
        ensures |x.href| < |best.href|
      {
        var j :| 0 <= j < |matched| && matched[j] == x;
        if |x.href| == |best.href| {
          MatchingHrefsHaveDistinctLengths(pathname, x.href, best.href);
        }
      }
      Some(best.href)
  }

  /** No two navigation items share an href. */
  predicate DistinctHrefs(items: seq<NavItem>) {
    forall i, j :: 0 <= i < j < |items| ==> items[i].href != items[j].href
  }

  lemma {:induction false} FilterKeepsHrefsDistinct(items: seq<NavItem>, keep: NavItem -> bool)
    requires DistinctHrefs(items)
    ensures DistinctHrefs(Filter(items, keep))
  {
    if items != [] {
      assert DistinctHrefs(items[1..]) by {
        forall i, j | 0 <= i < j < |items[1..]| ensures items[1..][i].href != items[1..][j].href {
          assert items[1..][i] == items[i + 1] && items[1..][j] == items[j + 1];
        }
      }
      FilterKeepsHrefsDistinct(items[1..], keep);
      if keep(items[0]) {
        var rest := Filter(items[1..], keep);
        forall j | 0 <= j < |rest| ensures rest[j].href != items[0].href {
          FilterMember(items[1..], keep, rest[j]);
        }
      }
    }
  }

  lemma NavHrefsDistinct()
    ensures DistinctHrefs(NavItems)
  {
    var h := seq(6, i requires 0 <= i < 6 => NavItems[i].href);
    assert h[1][1] == 'p' && h[3][1] == 'm' && h[4][1] == 's' && h[5][1] == 'm';
    assert h[3][2] == 'e' && h[5][2] == 'y';
  }

  lemma VisibleHrefsDistinct(role: Option<Role>)
    ensures DistinctHrefs(VisibleItems(role))
  {
    NavHrefsDistinct();
    if role.Some? {
      FilterKeepsHrefsDistinct(NavItems, ShownTo(role.value));
    }
  }

  /** At most one visible item is rendered active (its href equals the active href). */
  lemma AtMostOneActive(role: Option<Role>, pathname: string, i: nat, j: nat)
    requires i < j < |VisibleItems(role)|
    requires Some(VisibleItems(role)[i].href) == ActiveHref(role, pathname)
    ensures Some(VisibleItems(role)[j].href) != ActiveHref(role, pathname)
  {
    VisibleHrefsDistinct(role);
  }

  /** A row of the sidebar's message query. */
  datatype MessageRow = MessageRow(projectId: Option<string>, senderId: Option<string>, createdAt: string)

  /** The rows the query yields: the newest messages first, at most 400 of them. */
  const QueryLimit: nat := 400

  /** The filter's condition: sent by someone else, tied to a (non-empty) project, and unread. */
  predicate CountsAsUnread(local: KeyValueStore?, parse: DateParser, currentUserId: string, row: MessageRow)
    reads local
  {
    && row.senderId != Some(currentUserId)
    && row.projectId.Some? && row.projectId.value != ""
    && IsUnread(local, parse, currentUserId, row.projectId.value, row.createdAt)
  }

  /** The length of the filtered rows: how many of them count as unread. */
  function UnreadCount(local: KeyValueStore?, parse: DateParser, currentUserId: string, rows: seq<MessageRow>): (n: nat)
    reads local
    ensures n <= |rows|
    ensures n == 0 <==> forall i :: 0 <= i < |rows| ==> !CountsAsUnread(local, parse, currentUserId, rows[i])
    ensures n == |rows| <==> forall i :: 0 <= i < |rows| ==> CountsAsUnread(local, parse, currentUserId, rows[i])
  {
    if rows == [] then 0
    else
      var rest := UnreadCount(local, parse, currentUserId, rows[1..]);
      assert forall i :: 1 <= i < |rows| ==> rows[i] == rows[1..][i - 1];
      (if CountsAsUnread(local, parse, currentUserId, rows[0]) then 1 else 0) + rest
  }

  /** The user's own messages never contribute: removing them leaves the count unchanged. */
  lemma {:induction false} OwnMessagesNeverCounted(local: KeyValueStore?, parse: DateParser, currentUserId: string,
                                                   rows: seq<MessageRow>)
    ensures UnreadCount(local, parse, currentUserId, rows) ==
            UnreadCount(local, parse, currentUserId, Filter(rows, (r: MessageRow) => r.senderId != Some(currentUserId)))
  {
    if rows != [] {
      OwnMessagesNeverCounted(local, parse, currentUserId, rows[1..]);
    }
  }

  /** With no watermark for any project (or no window), every other user's project message counts. */
  lemma {:induction false} CountWithoutWatermarks(local: KeyValueStore?, parse: DateParser, currentUserId: string,
                                                  rows: seq<MessageRow>)
    requires forall p :: !HasWatermark(GetLastSeenAt(local, currentUserId, p))
    ensures UnreadCount(local, parse, currentUserId, rows) ==
            |Filter(rows, (r: MessageRow) => r.senderId != Some(currentUserId) && r.projectId.Some? && r.projectId.value != "")|
  {
    if rows != [] {
      CountWithoutWatermarks(local, parse, currentUserId, rows[1..]);
    }
  }

  /** What the message query produced. */
  datatype QueryOutcome =
    | QueryFailed(message: string)               // the response carried an error
    | QueryRows(data: Option<seq<MessageRow>>)    // the response carried (possibly null) data, newest first
    | QueryThrew                                 // creating the client or awaiting the query threw

  /** The badge on the "Messages" item: the count, shown only when positive. */
  function Badge(item: NavItem, unreadMessages: nat): Option<nat> {
    if item.href == "/messages" && unreadMessages > 0 then Some(unreadMessages) else None
  }

  /**
   * Whatever the role, Messages is visible and is the only visible item linking to `/messages`: so a positive
   * count badges exactly one rendered item, and a zero count badges none.
   */
  lemma BadgeOnExactlyOneItem(role: Option<Role>, unreadMessages: nat)
    ensures Messages in VisibleItems(role)
    ensures forall x :: x in VisibleItems(role) ==> (Badge(x, unreadMessages).Some? <==> x == Messages && unreadMessages > 0)
    ensures forall i, j ::
              (0 <= i < |VisibleItems(role)| && 0 <= j < |VisibleItems(role)| &&
               Badge(VisibleItems(role)[i], unreadMessages).Some? && Badge(VisibleItems(role)[j], unreadMessages).Some?)
              ==> i == j
  {
    var items := VisibleItems(role);
    NavHrefsDistinct();
    VisibleHrefsDistinct(role);
    assert NavItems[3] == Messages;
    if role.Some? {
      assert role.value in Messages.roles by {
        match role.value
        case Admin => assert Messages.roles[0] == Admin;
        case Qc => assert Messages.roles[1] == Role.Qc;
        case Editor => assert Messages.roles[2] == Editor;
      }
    }
    forall x | x in items && x.href == "/messages"
      ensures x == Messages
    {
      var k :| 0 <= k < |NavItems| && NavItems[k] == x;
      if k != 3 {
        assert false;
      }
    }
  }

  /**
   * The sidebar's mutable state: the `currentUserId` prop, the unread badge count, and whether the current run
   * of the polling effect is still mounted. `polled` records whether any load has run yet.
   */
  class SidebarState {
    var currentUserId: Option<string>
    var unreadMessages: nat
    var mounted: bool
    ghost var polled: bool

    /** The effect only polls for a signed-in user id (a non-empty string). */
    predicate Polling()
      reads this
    {
      currentUserId.Some? && currentUserId.value != ""
    }

    /** The count never exceeds the query limit, and stays 0 until some load has run. */
    ghost predicate Valid()
      reads this
    {
      && unreadMessages <= QueryLimit
      && (!polled ==> unreadMessages == 0)
    }

    constructor (currentUserId: Option<string>)
      ensures Valid()
      ensures this.currentUserId == currentUserId && unreadMessages == 0 && mounted && !polled
    {
      this.currentUserId := currentUserId;
      unreadMessages := 0;
      mounted := true;
      polled := false;
    }

    /** A valid state badges at most `QueryLimit` messages, and no badge appears before the first load. */
    lemma BadgeWithinQueryLimit(item: NavItem)
      requires Valid()
      ensures Badge(item, unreadMessages).Some? ==> Badge(item, unreadMessages).value <= QueryLimit
      ensures !polled ==> Badge(item, unreadMessages).None?
    {
    }

    /**
     * The prop changes: the old effect run is cleaned up and a new one starts for `id` (one that does nothing
     * when `id` is falsy). The `useState` count is kept, so the old user's badge stays until the next load.
     */
    method ChangeUser(id: Option<string>)
      requires Valid()
      modifies this`currentUserId, this`mounted
      ensures Valid()
      ensures currentUserId == id && mounted && unreadMessages == old(unreadMessages)
    {
      currentUserId := id;
      mounted := true;
    }

    /** Signing out keeps the badge: with no user the effect never loads again, so the last count stays. */
    method SignOutKeepsBadge(item: NavItem, local: KeyValueStore?, parse: DateParser, outcome: QueryOutcome)
      requires Valid()
      modifies this`currentUserId, this`mounted, this`unreadMessages, this`polled
      ensures !Polling()
      ensures Badge(item, unreadMessages) == old(Badge(item, unreadMessages))
    {
      ChangeUser(None);
      LoadUnreadCount(local, parse, outcome);
    }

    /**
     * One run of `loadUnreadCount`. Nothing happens without a user, after unmount, or on a query error;
     * a throw resets the count to 0; otherwise the count is recomputed over at most 400 rows.
     */
    method LoadUnreadCount(local: KeyValueStore?, parse: DateParser, outcome: QueryOutcome)
      requires Valid()
      modifies this`unreadMessages, this`polled
      ensures Valid()
      ensures !Polling() || !mounted ==> unreadMessages == old(unreadMessages)
      ensures Polling() && mounted ==> unreadMessages == match outcome
        case QueryFailed(_) => old(unreadMessages)
        case QueryThrew => 0
        case QueryRows(data) => UnreadCount(local, parse, currentUserId.value, Take(data.GetOr([]), QueryLimit))
    {
      if !Polling() || !mounted {
        return;
      }
      polled := true;
      match outcome
      case QueryFailed(_) =>
      case QueryThrew =>
        unreadMessages := 0;
      case QueryRows(data) =>
        var rows := Take(data.GetOr([]), QueryLimit);
        unreadMessages := UnreadCount(local, parse, currentUserId.value, rows);
    }

    /** The effect's cleanup: later loads change nothing. */
    method Unmount()
      modifies this`mounted
      ensures !mounted
    {
      mounted := false;
    }
  }
}

=== FILE: StatusPill.dfy ===
/** The status badge: a fixed table from status label to style classes, with a default. */
module StatusPill {
  import opened Domain

  /** The classes used for any label the table does not know. */
  const FallbackClasses: string := "bg-sand-100 text-ink-700"

  /** The style table, keyed by status label. */
  const StatusStyles: map<string, string> := map[
    "NEW" := "bg-sand-100 text-ink-700",
    "ASSIGNED" := "bg-emerald-100 text-emerald-700",
    "EDITING" := "bg-amber-100 text-amber-700",
    "QC" := "bg-sky-100 text-sky-700",
    "REVISION_REQUESTED" := "bg-rose-100 text-rose-700",
    "READY" := "bg-indigo-100 text-indigo-700",
    "DELIVERED" := "bg-emerald-100 text-emerald-700",
    "ARCHIVED" := "bg-zinc-100 text-zinc-600",
    "ON_HOLD" := "bg-orange-100 text-orange-700"
  ]

  /**
   * The table is a plain object literal, so a lookup that misses its own keys goes on to `Object.prototype`.
   * Its methods, each with the name its function value is printed under (`constructor` is `Object`).
   */
  const InheritedMethods: map<string, string> := map[
    "constructor" := "Object",
    "hasOwnProperty" := "hasOwnProperty",
    "isPrototypeOf" := "isPrototypeOf",
    "propertyIsEnumerable" := "propertyIsEnumerable",
    "toLocaleString" := "toLocaleString",
    "toString" := "toString",
    "valueOf" := "valueOf",
    "__defineGetter__" := "__defineGetter__",
    "__defineSetter__" := "__defineSetter__",
    "__lookupGetter__" := "__lookupGetter__",
    "__lookupSetter__" := "__lookupSetter__"
  ]

  /** The accessor that yields the table's prototype, `Object.prototype` itself. */
  const ProtoAccessor: string := "__proto__"

  /** Every label the lookup finds on the prototype rather than among the table's own keys. */
  const InheritedNames: set<string> := InheritedMethods.Keys + {ProtoAccessor}

  /** How a built-in function prints inside a template literal (the V8 form). */
  function NativeFunctionText(name: string): string {
    "function " + name + "() { [native code] }"
  }

  /** What the badge renders: the text shown and the classes applied. */
  datatype Pill = Pill(text: string, classes: string)

  /**
   * `statusStyles[name] ?? fallback`, as interpolated into the class list: the table entry when there is
   * one; the printed inherited member when the prototype has one (it is never nullish, so `??` keeps it);
   * else the fallback.
   */
  function Classes(name: string): (c: string)
    ensures name in StatusStyles ==> c == StatusStyles[name]
    ensures name in InheritedMethods ==> c == NativeFunctionText(InheritedMethods[name])
    ensures name == ProtoAccessor ==> c == "[object Object]"
    ensures name !in StatusStyles && name !in InheritedNames ==> c == FallbackClasses
  {
    if name in StatusStyles then StatusStyles[name]
    else if name in InheritedMethods then NativeFunctionText(InheritedMethods[name])
    else if name == ProtoAccessor then "[object Object]"
    else FallbackClasses
  }

  /** Every class list of the table begins with a background class (`b`); no inherited member's text does. */
  lemma OnlyTableClassesStartWithBackground(name: string)
    ensures |Classes(name)| > 0
    ensures Classes(name)[0] == 'b' <==> name !in InheritedNames
  {
    if name in StatusStyles {
      if name == "NEW" { assert StatusStyles[name][0] == 'b'; }
      else if name == "ASSIGNED" { assert StatusStyles[name][0] == 'b'; }
      else if name == "EDITING" { assert StatusStyles[name][0] == 'b'; }
      else if name == "QC" { assert StatusStyles[name][0] == 'b'; }
      else if name == "REVISION_REQUESTED" { assert StatusStyles[name][0] == 'b'; }
      else if name == "READY" { assert StatusStyles[name][0] == 'b'; }
      else if name == "DELIVERED" { assert StatusStyles[name][0] == 'b'; }
      else if name == "ARCHIVED" { assert StatusStyles[name][0] == 'b'; }
      else { assert StatusStyles[name][0] == 'b'; }
    } else if name in InheritedMethods {
      assert Classes(name)[0] == 'f';
    }
  }

  /** The fallback is NEW's entry, so it is one of the table's class lists. */
  lemma FallbackIsATableEntry()
    ensures StatusStyles["NEW"] == FallbackClasses
    ensures FallbackClasses in StatusStyles.Values
  {
    assert StatusStyles["NEW"] == FallbackClasses;
  }

  /** A label is styled with one of the table's class lists exactly when it is not an inherited property name. */
  lemma TableClassesExactlyForOwnNames(name: string)
    ensures Classes(name) in StatusStyles.Values <==> name !in InheritedNames
  {
    FallbackIsATableEntry();
    OnlyTableClassesStartWithBackground(name);
    forall own | own in StatusStyles
      ensures StatusStyles[own][0] == 'b'
    {
      OnlyTableClassesStartWithBackground(own);
    }
  }

  /**
   * The badge for a label: the label is shown unchanged, styled by the lookup. Its classes are one of the
   * table's class lists exactly when the label is not an inherited property name.
   */
  function Render(status: string): (p: Pill)
    ensures p.text == status
    ensures p.classes == Classes(status)
    ensures p.classes in StatusStyles.Values <==> status !in InheritedNames
  {
    TableClassesExactlyForOwnNames(status);
    Pill(status, Classes(status))
  }

  /** The table has an entry for every one of the nine statuses, and for nothing else. */
  lemma TableCoversExactlyTheStatuses()
    ensures forall s: ProjectStatus :: StatusName(s) in StatusStyles
    ensures forall name :: name in StatusStyles ==> exists s: ProjectStatus :: StatusName(s) == name
  {
    forall name | name in StatusStyles
      ensures exists s: ProjectStatus :: StatusName(s) == name
    {
      if name == "NEW" { assert StatusName(New) == name; }
      else if name == "ASSIGNED" { assert StatusName(Assigned) == name; }
      else if name == "EDITING" { assert StatusName(Editing) == name; }
      else if name == "QC" { assert StatusName(ProjectStatus.Qc) == name; }
      else if name == "REVISION_REQUESTED" { assert StatusName(RevisionRequested) == name; }
      else if name == "READY" { assert StatusName(Ready) == name; }
      else if name == "DELIVERED" { assert StatusName(Delivered) == name; }
      else if name == "ARCHIVED" { assert StatusName(Archived) == name; }
      else { assert StatusName(OnHold) == name; }
    }
  }

  /**
   * A label gets the fallback classes exactly when it is NEW or is neither a status nor an inherited
   * property name: lower-case status names fall back, `toString` and `__proto__` do not.
   */
  lemma UnknownLabelFallsBack(name: string)
    ensures Classes(name) == FallbackClasses <==>
              name == StatusName(New) || ((forall s: ProjectStatus :: name != StatusName(s)) && name !in InheritedNames)
  {
    TableCoversExactlyTheStatuses();
    OnlyTableClassesStartWithBackground(name);
  }

  /** Among the statuses, exactly NEW is styled like an unknown label. */
  lemma OnlyNewLooksLikeFallback(s: ProjectStatus)
    ensures Classes(StatusName(s)) == FallbackClasses <==> s == New
  {
  }

  /** Two different statuses share their classes exactly when they are ASSIGNED and DELIVERED. */
  lemma SharedClasses(a: ProjectStatus, b: ProjectStatus)
    ensures Classes(StatusName(a)) == Classes(StatusName(b)) <==>
              a == b || (a == Assigned && b == Delivered) || (a == Delivered && b == Assigned)
  {
    StatusNameInjective(a, b);
  }
}

=== FILE: WebStorage.dfy ===
/** A browser Web Storage area (`localStorage` or `sessionStorage`): string keys mapped to string values. */
module WebStorage {
  import opened Wrappers

  class KeyValueStore {
    var entries: map<string, string>

    constructor (initial: map<string, string>)
      ensures entries == initial
    {
      entries := initial;
    }

    /** `getItem`: the stored value, or `null` (None) when the key was never set. */
    function GetItem(key: string): (r: Option<string>)
      reads this
      ensures r.Some? <==> key in entries
      ensures r.Some? ==> r.value == entries[key]
    {
      if key in entries then Some(entries[key]) else None
    }

    /** `setItem`: stores `value` under `key`; every other key keeps its value. */
    method SetItem(key: string, value: string)
      modifies this
      ensures entries == old(entries)[key := value]
      ensures GetItem(key) == Some(value)
      ensures forall k :: k != key ==> GetItem(k) == old(GetItem(k))
    {
      entries := entries[key := value];
    }
  }
}

=== FILE: Wrappers.dfy ===
/** Optional values: the model's stand-in for JavaScript's `null`/`undefined`. */
module Wrappers {

  datatype Option<+T> = None | Some(value: T) {

    /** Returns the value held in Some, or a default when None (JavaScript's `??`). */
    function GetOr(default: T): T {
      match this
      case Some(v) => v
      case None => default
    }
  }
}
